=== FILE: README.md ===
# mcp-copilot router core in Dafny

This project models the aggregation core of `mcp-server-copilot`. That is a
Model Context Protocol (MCP) server that sits in front of many backend MCP
servers. It connects to each of them, indexes their descriptions and tools,
routes a free-text query to the best servers or tools, and forwards tool calls
to the right backend. It models three source files:

- `schemas.py`: the `ServerConfig` record with its defaults and its one
  validation rule (module `Schemas`), and the `Server` record.
- `mcp_connection.py`: `MCPConnection` as a state record (module `Connections`).
  The record holds the server, an optional session and the exit stack of
  entered contexts. `connect`, `list_tools`, `call_tool` and `aclose` are pure
  transition functions. Transports, the client session handshake, the tool
  fetch and the exit-stack cleanup do not run. A `Backend` value says which of
  these steps return and which raise, and with what cause.
- `router.py`: the `Router` as a state record (module `Routing`). It holds the
  configuration, an insertion-ordered connection map and the `_servers` /
  `_tools` indices. `initialize`, `get_servers`, `get_tools`, `route_servers`,
  `route_tools`, `call_tool` and `aclose` are pure functions. Each server's
  connect outcome is a parameter. So is the BM25 ranker: an oracle from
  (corpus, query, k) to corpus positions (module `Retrieval`). So is the
  session's own `call_tool`.

Python dictionaries keep insertion order. They are modelled as
`OrderedDicts.ODict`: a sequence of pairs with distinct keys. `d[k] = v` is
`Put`, which keeps an existing key in its place. Python truthiness of a
`str | None` field is `Schemas.Present`: both `None` and `""` count as absent.
Raised exceptions are `Err` values of `Schemas.Error`.

Some behaviour of the code is easy to misread. The model follows the code:

- The validator rejects only a record with neither `command` nor `url`. A
  record with both is accepted, and `connect` then uses stdio.
- The docstring of `initialize` (router.py:118) says connections are
  established concurrently. The code awaits each `connect` in turn inside a
  `for` loop, and the model connects them one after another.
- `connect` has no guard against being called again on the same connection.
  `aclose` on an empty exit stack drops the session, and a closed connection
  can connect again.
- A failed `connect` whose cleanup raises keeps the session it had already set.
  `Connections.FreshConnectFailure` states exactly when this happens.
- `route_tools` ranks the tool documents that line 154 of router.py builds.
  Each one carries the `Server` that the loop variable `server` of the first
  loop of `initialize` is left bound to. `Routing.RouteTools` models that
  code, and the index keeps that server as `leftover`. The corrected route,
  whose documents name the server that owns each tool, is
  `Routing.RouteToolsCorrected` (see Findings).

## Model

| member | source | states |
|---|---|---|
| Schemas.CheckCommandOrUrl | src/mcp_server_copilot/schemas.py:14-18 | rejects exactly when command and url are both absent or empty; otherwise returns the record unchanged |
| Schemas.ParseConfig | src/mcp_server_copilot/schemas.py:7-18 | fields left out take the defaults (no command, no url, no args, empty env and headers); the rest is kept; rejected exactly when neither command nor url is present |
| Schemas.BothCommandAndUrlAccepted | src/mcp_server_copilot/schemas.py:16-17 | a record with both command and url passes validation and keeps both |
| Schemas.EmptyStringsRejected | src/mcp_server_copilot/schemas.py:16-17 | an empty command with an empty or missing url is rejected like a missing one |
| Schemas.NewServer | src/mcp_server_copilot/schemas.py:21-32 | a new server has the given name and config, no description and no tools |
| Connections.NewConnection | src/mcp_server_copilot/mcp_connection.py:18-21 | a new connection serves the given server, with no session and an empty exit stack |
| Connections.SelectTransport | src/mcp_server_copilot/mcp_connection.py:26-52 | stdio exactly when a command is present; SSE exactly when there is no command but a url; none when both are absent |
| Connections.ReleaseOrder | src/mcp_server_copilot/mcp_connection.py:79-85 | the exit stack is left in reverse order of entry: position i of the release order is position n-1-i of the stack |
| Connections.ReleaseOrderPush | src/mcp_server_copilot/mcp_connection.py:31-36 | the context entered last is released first |
| Connections.ReleaseOrderMembers | src/mcp_server_copilot/mcp_connection.py:79-85 | leaving the exit stack releases each of its contexts and nothing else |
| Connections.Close | src/mcp_server_copilot/mcp_connection.py:79-85 | aclose never raises, empties the exit stack, releases its contexts in reverse order, and drops the session unless a context raised while being left |
| Connections.CloseTwice | src/mcp_server_copilot/mcp_connection.py:79-85 | a second aclose releases nothing and only drops a session the first one kept |
| Connections.Abort | src/mcp_server_copilot/mcp_connection.py:57-60 | the failure path of connect: closes the connection, releasing its stack in reverse order, leaves the server as it was, keeps its own session, unchanged, exactly when there was one and the non-empty stack raised while being left, and raises the original error |
| Connections.FetchTools | src/mcp_server_copilot/mcp_connection.py:53-60 | the last step of connect succeeds exactly when there is a session and the tool list arrives; it then stores the list in the server's `tools` field, leaves every other field of the server, the session and the exit stack as they were, and releases nothing; without a session, or when the fetch raises, it closes the connection and raises that error |
| Connections.Connect | src/mcp_server_copilot/mcp_connection.py:23-60 | a successful connect leaves a session and the fetched tool list on the server, with every other field of the server unchanged, and releases nothing; a failed one leaves the exit stack empty and the server as it was |
| Connections.FreshConnect | src/mcp_server_copilot/mcp_connection.py:23-56 | a new connection connects exactly when every step succeeds; it then holds a session on the configured transport, both contexts on its stack, and list_tools returns the fetched tools |
| Connections.FreshConnectFailure | src/mcp_server_copilot/mcp_connection.py:57-60 | a failed connect re-raises the error of the first failing step, has released what it had acquired (last acquired first), and keeps a session exactly when a transport was configured, every step up to the handshake returned, the tool fetch failed and the cleanup raised; that kept session is the one opened for this server on the chosen transport |
| Connections.ListTools | src/mcp_server_copilot/mcp_connection.py:62-69 | raises "not established" exactly when there is no session; otherwise returns the server's stored tools |
| Connections.CallTool | src/mcp_server_copilot/mcp_connection.py:71-77 | raises "not established" without a session; otherwise returns what the session returns for the same tool name and parameters |
| Connections.NoSessionRefusesCalls | src/mcp_server_copilot/mcp_connection.py:62-77 | a new connection, and one whose exit stack closed cleanly, refuse list_tools and call_tool |
| OrderedDicts.Put | src/mcp_server_copilot/router.py:232 | storing under an existing key keeps the key order; a new key is appended; the stored pair is present; every other entry is one that was there before |
| OrderedDicts.PutKeepsOthers | src/mcp_server_copilot/router.py:232 | storing under one key leaves every other key's value unchanged |
| OrderedDicts.PutAllIntoEmpty | src/mcp_server_copilot/router.py:135-137 | storing the entries of a dictionary into an empty one rebuilds it, order included |
| Retrieval.Search | src/mcp_server_copilot/retriever.py:51-79 | returns the ids of the ranked documents in ranked order; at most top_k and at most the corpus size |
| Routing.NewRouter | src/mcp_server_copilot/router.py:88-104 | a new router has its configuration, no connections and no indices |
| Routing.QualifiedId | src/mcp_server_copilot/router.py:232 | the id is the server name, a slash, then the tool name |
| Routing.FirstSegment | src/mcp_server_copilot/router.py:174 | the result is the longest prefix of the id without a slash: it is followed by a slash or by the end of the id |
| Routing.FirstSegmentOfQualifiedId | src/mcp_server_copilot/router.py:174 | splitting a qualified id at its first slash gives back the server name when that name has no slash |
| Routing.QualifiedIdsDistinct | src/mcp_server_copilot/router.py:227-232 | different (server, tool) pairs give different qualified ids when server names have no slash |
| Routing.SlashInServerNameCollides | src/mcp_server_copilot/router.py:174 | with a slash in a server name, two pairs share an id and the split yields a different server |
| Routing.BuildConnections | src/mcp_server_copilot/router.py:120-124 | raises the validation error exactly when some entry is invalid; otherwise one new connection per entry, in config order, for the validated server |
| Routing.ConnectEach | src/mcp_server_copilot/router.py:126-132 | connects every connection in order and keeps each outcome, raised or not |
| Routing.Settle | src/mcp_server_copilot/router.py:134-139 | kept plus failed is the total, and every kept connection is under a key of the built connections, so the stored map has distinct keys |
| Routing.SettleConnected | src/mcp_server_copilot/router.py:134-137 | the connections kept are exactly those whose connect returned, each in the state its connect left it in |
| Routing.SettleFailed | src/mcp_server_copilot/router.py:135-139 | the names logged are exactly those whose connect raised |
| Routing.SettleKeepsOrder | src/mcp_server_copilot/router.py:134-139 | both the kept connections and the logged names are in config order |
| Routing.ConnectedInOrder | src/mcp_server_copilot/router.py:134-137 | the kept connections are a subsequence of the config order |
| Routing.FailedInOrder | src/mcp_server_copilot/router.py:135-139 | the logged names are a subsequence of the config order |
| Routing.GetServers | src/mcp_server_copilot/router.py:236-243 | the same keys as the connections in the same order, each with its connection's server |
| Routing.AddServerTools | src/mcp_server_copilot/router.py:231-232 | every tool of the server is stored under its qualified id; every entry is an earlier one or such a tool; earlier keys keep their places |
| Routing.CollectTools | src/mcp_server_copilot/router.py:226-234 | raises exactly when a selected connection has no session or no tool list; otherwise every entry is a tool of a selected connection under its qualified id, and every such tool is present |
| Routing.GetTools | src/mcp_server_copilot/router.py:207-234 | a non-empty name missing from the config raises; otherwise the entries are exactly the tools of the selected connections under their qualified ids, and it raises only for a selected connection without a session or tools; nothing else is ever raised |
| Routing.ToolFilter | src/mcp_server_copilot/router.py:223-228 | `if server_name` lets a name through exactly when it is given and non-empty; `None` and `""` both select every server |
| Routing.Initialize | src/mcp_server_copilot/router.py:115-160 | raises the validation error, with no connect attempted and the router unchanged, exactly when some entry is invalid; otherwise attempts every configured server; on success indexes exactly the connected servers and records the leftover server: present exactly when something is configured, with the name and config of the last entry |
| Routing.Leftover | src/mcp_server_copilot/router.py:121-129 | the server the first loop leaves `server` bound to: none for an empty config, otherwise one with the name and config of the last built connection |
| Routing.ServerCorpus | src/mcp_server_copilot/router.py:142-148 | one document per server index entry, with the server name as id |
| Routing.ToolCorpus | src/mcp_server_copilot/router.py:150-157 | the corrected corpus: one document per tool index entry, with the qualified id as id and the tool as content, labelled with the slash-free prefix of that id that ends at its first slash or at its end, i.e. `split("/")[0]` |
| Routing.ToolCorpusAsWritten | src/mcp_server_copilot/router.py:150-157 | as written, one document per tool index entry, each carrying the same leftover server object, whichever server owns the tool |
| Routing.RouteServers | src/mcp_server_copilot/router.py:162-167 | before initialize it raises; after, one server per ranked position, in ranked order, at most top_k |
| Routing.RankTools | src/mcp_server_copilot/router.py:170-176 | one entry per ranked position of the corpus, in ranked order, at most top_k, with the tool and the server name split off its id |
| Routing.RouteTools | src/mcp_server_copilot/router.py:169-178 | before initialize it raises; after, the ranker is given the corpus line 154 builds, and the answer has one entry per ranked position, in ranked order, with the tool and the server name split off its id |
| Routing.RouteToolsCorrected | src/mcp_server_copilot/router.py:169-178 | the same route over the corrected corpus, whose documents name the owning server |
| Routing.CallTool | src/mcp_server_copilot/router.py:180-205 | raises "not connected" for a name without an active connection; otherwise forwards to that connection with `params or {}`, and whatever it raises is passed on unchanged |
| Routing.CloseAll | src/mcp_server_copilot/router.py:247-248 | closes every connection, the last inserted first, and releases the connections' exit stacks in that order, each stack last context first |
| Routing.ReleasedAreStacked | src/mcp_server_copilot/router.py:245-250 | what closing releases is exactly what the connections held on their exit stacks, and the last connection's contexts come first |
| Routing.Aclose | src/mcp_server_copilot/router.py:245-250 | closes connections in reverse insertion order; releases exactly the resources on their exit stacks, the last connection's first; then leaves the map empty and the rest of the router untouched |
| RoutingLemmas.SettleByPosition | src/mcp_server_copilot/router.py:134-139 | the connection at each position is kept exactly when its connect returned and logged exactly when it raised |
| RoutingLemmas.ConnectEachFresh | src/mcp_server_copilot/router.py:121-132 | for a valid config each connect succeeds exactly when every step for that server succeeds, and then leaves a live connection named after its server |
| RoutingLemmas.SettledOfFresh | src/mcp_server_copilot/router.py:121-139 | each configured server is kept exactly when its connect succeeds and logged otherwise; kept connections are live and keyed by their server's name |
| RoutingLemmas.InitializeFresh | src/mcp_server_copilot/router.py:115-160 | a valid config never makes initialize raise; every server is attempted; the connection keys are the succeeding names in config order; kept plus failed is the total; the indices are get_servers() and get_tools() |
| RoutingLemmas.InitializeReady | src/mcp_server_copilot/router.py:115-160 | a valid configuration always initializes into the ready state |
| RoutingLemmas.InvalidEntryStopsInitialize | src/mcp_server_copilot/router.py:121-132 | one invalid entry makes initialize raise with the router unchanged and an empty `attempted` list (the names the connect loop reached); `InvalidEntryIgnoresBackends` states the observable side: no backend is consulted |
| RoutingLemmas.InvalidEntryIgnoresBackends | src/mcp_server_copilot/router.py:121-132 | when some entry is invalid, initialize has the same outcome whatever every server's backend would do, since validation raises before any connect |
| RoutingLemmas.ToolIndexOwned | src/mcp_server_copilot/router.py:226-232 | in the ready state with slash-free names, each tool index entry is a tool of the connected server its id starts with |
| RoutingLemmas.RoutedToolsAreCallable | src/mcp_server_copilot/router.py:169-205 | when server names have no slash, every tool route_tools returns belongs to an active connection of the reported server, and call_tool with that pair reaches that connection's session with `params or {}` |
| RoutingLemmas.RoutedServersAreConnected | src/mcp_server_copilot/router.py:162-167 | every routed server is the server object of an active connection stored under that server's name |
| RoutingLemmas.ToolCorpusLabelsOwner | src/mcp_server_copilot/router.py:150-157 | the corrected tool corpus labels each document with a connected server that serves the tool |
| RoutingLemmas.ToolCorpusAsWrittenMislabels | src/mcp_server_copilot/router.py:154 | after initialize of a valid config whose server names have no slash, every tool document as written carries the last configured server, so a tool of any other connected server is labelled with the wrong server |
| RoutingLemmas.InitializeLeftover | src/mcp_server_copilot/router.py:121-124 | after initialize of a valid, non-empty config, the leftover `server` is the last configured one |
| RoutingLemmas.LeftoverLabelsEveryTool | src/mcp_server_copilot/router.py:150-157 | in the ready state, when server names have no slash, every tool document as written carries the leftover server, while the tool is served by the server its id names |
| RoutingLemmas.NoToolsWithoutConnections | src/mcp_server_copilot/router.py:150-157 | with nothing configured there are no tool documents, so the unbound name at line 154 is never read |
| RoutingLemmas.RouteToolsCorrectedSameAnswer | src/mcp_server_copilot/router.py:169-178 | given the same ranked positions, the route as written and the corrected route give the same answer: the correction changes only what the ranker sees |
| RoutingLemmas.ToolsNamespacedByServer | src/mcp_server_copilot/router.py:227-232 | when server names have no slash, tools of two different connected servers, even with the same name, get two distinct entries in the tool index |
| RoutingLemmas.GetToolsOfUnconnectedServer | src/mcp_server_copilot/router.py:223-234 | get_tools for a configured server that did not connect returns an empty map |
| RoutingLemmas.GetToolsOfOneServer | src/mcp_server_copilot/router.py:226-232 | get_tools for one server returns only that server's tools, each under its qualified id |
| RoutingLemmas.LiveConnectionsListTools | src/mcp_server_copilot/router.py:226-234 | get_tools() cannot raise when every connection has a session and a tool list |
| RoutingLemmas.AcloseTwice | src/mcp_server_copilot/router.py:245-250 | a second aclose closes nothing, releases nothing and changes nothing |

## Left out

- BM25 scoring, tokenisation, stop words and stemming (`retriever.py`) are not modelled. They use floating point and a foreign library. The ranker is an oracle. It is only assumed to return at most k positions, each inside the corpus, with none repeated.
- The YAML rendering of documents and routing answers (`dump_to_yaml`) is not modelled. Corpus documents carry the structured value their text is rendered from. Routing answers are the structured lists before they are dumped.
- Configuration loading from a path, and the fall-back to `DEFAULT_CONFIG`, are left out: they are file and JSON I/O. The router is built from an already-parsed `mcpServers` map.
- The transports (`stdio_client`, `sse_client`), the `ClientSession` handshake and the session's `call_tool` are foreign code. They are modelled as `Backend` step outcomes and as an `invoke` parameter.
- Pydantic's checks of field types (for example `args` given as `null`) are left out. So are its wrapping of the validator's `ValueError` into a `ValidationError`, and the contents of error messages.
- Tool input schemas, header values and tool-call arguments are opaque values: strings, or a type parameter.
- Logging, the async context-manager entry points (`__aenter__` / `__aexit__`), `server.py` (the FastMCP front end) and `__init__.py` (argument parsing) are left out.
- Routing.Initialize: with an empty configuration but connections already stored, a state that `Router(config)` never reaches, the source would raise `NameError` at line 154 of router.py. The model records no leftover server and does not raise. `RoutingLemmas.NoToolsWithoutConnections` shows that a router built from its configuration has no tool documents in that case.
- Retrieval.Search: `top_k` is a natural number. The effect of a negative `top_k` on the ranking library is not modelled.

## Findings

| source | as written | input that shows it | evidently intended | confidence | as-written member | corrected member |
|---|---|---|---|---|---|---|
| src/mcp_server_copilot/router.py:154 | each tool document is rendered from `{"server_name": server}`, where `server` is the variable left over from the loop at line 122, i.e. the last configured `Server` object | servers `a` and `b` configured, tool `t` served by `a`: the document for `a/t` names server `b` | the name of the server that owns the tool, as `route_tools` computes it at line 174 | high; not executed | RoutingLemmas.ToolCorpusAsWrittenMislabels | RoutingLemmas.ToolCorpusLabelsOwner |

=== FILE: connection.dfy ===
/** `MCPConnection` (mcp_connection.py) as a state record: the server it
    serves, an optional session, and the exit stack of acquired resources.
    Transports and sessions are not run: a `Backend` value says which of their
    steps succeed and what `list_tools` answers. */
module Connections {
  import opened Wrappers
  import opened Schemas

  datatype TransportKind = Stdio | Sse

  /** A context entered into the exit stack. */
  datatype Resource = TransportStreams(kind: TransportKind) | ClientSession(kind: TransportKind)

  /** An initialized client session to the named server. */
  datatype Session = Session(server: string, kind: TransportKind)

  /** Outcome of one external step: it returns, or it raises. */
  datatype Step = Returns | Raises(cause: string)

  /** How one backend behaves when a connection talks to it. */
  datatype Backend = Backend(
    openTransport: Step,                   // entering `stdio_client` / `sse_client`
    openSession: Step,                     // entering `ClientSession(read, write)`
    handshake: Step,                       // `session.initialize()`
    listTools: Result<seq<Tool>, string>,  // `session.list_tools()`
    cleanup: Step)                         // `AsyncExitStack.aclose()` on a non-empty stack

  datatype Connection = Connection(server: Server, session: Option<Session>, exitStack: seq<Resource>)

  /** The state after an operation, what it returned or raised, and the
      resources it released, in release order. */
  datatype Transition = Transition(conn: Connection, result: Res<()>, released: seq<Resource>)

  /** `MCPConnection(server)`. */
  function NewConnection(server: Server): (c: Connection)
    ensures c.server == server && c.session.None? && c.exitStack == []
  {
    Connection(server, None, [])
  }

  /** The transport `connect` opens: stdio when a command is present, otherwise
      SSE when a url is present, otherwise none. */
  function SelectTransport(config: ServerConfig): (t: Option<TransportKind>)
    ensures t == Some(Stdio) <==> Present(config.command)
    ensures t == Some(Sse) <==> !Present(config.command) && Present(config.url)
    ensures t.None? <==> !Present(config.command) && !Present(config.url)
  {
    if Present(config.command) then Some(Stdio)
    else if Present(config.url) then Some(Sse)
    else None
  }

  /** The order in which `AsyncExitStack.aclose` leaves the contexts of a stack:
      the last one entered first. */
  function ReleaseOrder(stack: seq<Resource>): (out: seq<Resource>)
    ensures |out| == |stack|
    ensures forall i :: 0 <= i < |stack| ==> out[i] == stack[|stack| - 1 - i]
  {
    if |stack| == 0 then [] else [stack[|stack| - 1]] + ReleaseOrder(stack[..|stack| - 1])
  }

  /** `aclose`: the exit stack is left empty whatever happens; the session is
      dropped unless a context raised while being left, and that exception is
      swallowed. Leaving an empty stack never raises. */
  function Close(c: Connection, cleanup: Step): (t: Transition)
    ensures t.result == Ok(())
    ensures t.conn.exitStack == [] && t.conn.server == c.server
    ensures t.released == ReleaseOrder(c.exitStack)
    ensures t.conn.session.None? <==> c.exitStack == [] || cleanup.Returns? || c.session.None?
    ensures t.conn.session.Some? ==> t.conn.session == c.session
  {
    var cleanExit := c.exitStack == [] || cleanup.Returns?;
    Transition(c.(exitStack := [], session := if cleanExit then None else c.session), Ok(()), ReleaseOrder(c.exitStack))
  }

  /** The `except` branch of `connect`: close, then re-raise the same error. */
  function Abort(c: Connection, e: Error, b: Backend): (t: Transition)
    ensures t.result == Err(e)
    ensures t.conn.exitStack == [] && t.released == ReleaseOrder(c.exitStack)
    ensures t.conn.server == c.server
    ensures t.conn.session.Some? <==> c.session.Some? && c.exitStack != [] && b.cleanup.Raises?
    ensures t.conn.session.Some? ==> t.conn.session == c.session
  {
    var closed := Close(c, b.cleanup);
    Transition(closed.conn, Err(e), closed.released)
  }

  /** The last step of `connect`: fetch the tool list through the current session
      and store it on the server. */
  function FetchTools(c: Connection, b: Backend): (t: Transition)
    ensures t.result.Ok? <==> c.session.Some? && b.listTools.Ok?
    ensures c.session.None? ==> t.result == Err(NoSession)
    ensures c.session.Some? && b.listTools.Err? ==> t.result == Err(Raised(b.listTools.error))
    ensures t.result.Ok? ==>
      && t.conn.server == c.server.(tools := Some(b.listTools.value))
      && t.conn.session == c.session && t.conn.exitStack == c.exitStack && t.released == []
    ensures t.result.Err? ==> t.conn.server == c.server && t.conn.exitStack == [] && t.released == ReleaseOrder(c.exitStack)
  {
    if c.session.None? then Abort(c, NoSession, b)
    else match b.listTools
      case Err(cause) => Abort(c, Raised(cause), b)
      case Ok(tools) => Transition(c.(server := c.server.(tools := Some(tools))), Ok(()), [])
  }

  /** `connect`: open the transport chosen by the config, open and initialize a
      session on it, then fetch the tools. Each context entered is pushed on the
      exit stack; any failure closes the connection and raises the original error. */
  function Connect(c: Connection, b: Backend): (t: Transition)
    ensures t.conn.server.name == c.server.name && t.conn.server.config == c.server.config
    ensures t.result.Ok? ==> t.released == [] && t.conn.session.Some?
    ensures t.result.Ok? ==> b.listTools.Ok? && t.conn.server == c.server.(tools := Some(b.listTools.value))
    ensures t.result.Err? ==> t.conn.exitStack == [] && t.conn.server == c.server
  {
    match SelectTransport(c.server.config)
    case None => FetchTools(c, b)
    case Some(kind) =>
      if b.openTransport.Raises? then Abort(c, Raised(b.openTransport.cause), b)
      else
        var c1 := c.(exitStack := c.exitStack + [TransportStreams(kind)]);
        if b.openSession.Raises? then Abort(c1, Raised(b.openSession.cause), b)
        else
          var c2 := c1.(exitStack := c1.exitStack + [ClientSession(kind)]);
          if b.handshake.Raises? then Abort(c2, Raised(b.handshake.cause), b)
          else FetchTools(c2.(session := Some(Session(c.server.name, kind))), b)
  }

  /** `list_tools`: refused without a session, otherwise the server's stored
      tool list, which is `None` if no connect ever stored one. */
  function ListTools(c: Connection): (r: Res<Option<seq<Tool>>>)
    ensures r.Err? <==> c.session.None?
    ensures r.Err? ==> r.error == NotEstablished(c.server.name)
    ensures r.Ok? ==> r.value == c.server.tools
  {
    if c.session.None? then Err(NotEstablished(c.server.name)) else Ok(c.server.tools)
  }

  /** `call_tool`: refused without a session, otherwise whatever the session's
      own `call_tool` returns or raises for the same name and parameters. */
  function CallTool<P, V>(c: Connection, toolName: string, params: P, invoke: (Session, string, P) -> Res<V>): (r: Res<V>)
    ensures c.session.None? ==> r == Err(NotEstablished(c.server.name))
    ensures c.session.Some? ==> r == invoke(c.session.value, toolName, params)
  {
    if c.session.None? then Err(NotEstablished(c.server.name)) else invoke(c.session.value, toolName, params)
  }

  /** Every step a fresh connect depends on succeeds: a transport is configured,
      it opens, the session opens and initializes, and the tool list arrives. */
  predicate ConnectSucceeds(config: ServerConfig, b: Backend) {
    && SelectTransport(config).Some?
    && b.openTransport.Returns?
    && b.openSession.Returns?
    && b.handshake.Returns?
    && b.listTools.Ok?
  }

  /** A fresh connection connects exactly when every step succeeds; it then holds
      a session over the configured transport, its two contexts on the exit stack,
      and the fetched tools, which `list_tools` returns from then on. */
  lemma FreshConnect(server: Server, b: Backend)
    ensures var t := Connect(NewConnection(server), b);
      t.result.Ok? <==> ConnectSucceeds(server.config, b)
    ensures var t := Connect(NewConnection(server), b);
      t.result.Ok? ==>
        var kind := SelectTransport(server.config).value;
        && t.conn.session == Some(Session(server.name, kind))
        && t.conn.exitStack == [TransportStreams(kind), ClientSession(kind)]
        && ListTools(t.conn) == Ok(Some(b.listTools.value))
  {
  }

  /** A failed connect from a fresh connection re-raises the error of the first
      step that failed, and has released what it acquired, last acquired first.
      The session survives exactly when every step up to the handshake returned,
      the tool fetch failed, and the cleanup then raised. */
  lemma FreshConnectFailure(server: Server, b: Backend)
    requires !ConnectSucceeds(server.config, b)
    ensures var t := Connect(NewConnection(server), b);
      t.conn.exitStack == [] && (b.cleanup.Returns? ==> ListTools(t.conn) == Err(NotEstablished(server.name)))
    ensures var t := Connect(NewConnection(server), b);
      t.conn.session.Some? <==>
        && SelectTransport(server.config).Some? && b.openTransport.Returns? && b.openSession.Returns?
        && b.handshake.Returns? && b.listTools.Err? && b.cleanup.Raises?
    ensures var t := Connect(NewConnection(server), b);
      t.conn.session.Some? ==> t.conn.session == Some(Session(server.name, SelectTransport(server.config).value))
    ensures var t := Connect(NewConnection(server), b);
      match SelectTransport(server.config)
      case None => t.result == Err(NoSession) && t.released == []
      case Some(kind) =>
        if b.openTransport.Raises? then
          t.result == Err(Raised(b.openTransport.cause)) && t.released == []
        else if b.openSession.Raises? then
          t.result == Err(Raised(b.openSession.cause)) && t.released == [TransportStreams(kind)]
        else
          && t.result == Err(if b.handshake.Raises? then Raised(b.handshake.cause) else Raised(b.listTools.error))
          && t.released == [ClientSession(kind), TransportStreams(kind)]
  {
  }

  /** A second `aclose` finds an empty exit stack: it releases nothing and only
      drops a session the first one may have kept. */
  lemma CloseTwice(c: Connection, first: Step, second: Step)
    ensures var t1 := Close(c, first);
      var t2 := Close(t1.conn, second);
      && t2.released == []
      && t2.result == Ok(())
      && t2.conn == t1.conn.(session := None)
      && (c.exitStack == [] || first.Returns? ==> t2.conn == t1.conn)
  {
  }

  /** A fresh connection, and one whose exit stack closed cleanly, refuse both
      `list_tools` and `call_tool`. */
  lemma NoSessionRefusesCalls<P, V>(c: Connection, cleanup: Step, toolName: string, params: P, invoke: (Session, string, P) -> Res<V>)
    requires c.exitStack == [] || cleanup.Returns?
    ensures var initial := NewConnection(c.server);
      ListTools(initial).Err? && CallTool(initial, toolName, params, invoke).Err?
    ensures var closed := Close(c, cleanup).conn;
      && ListTools(closed) == Err(NotEstablished(c.server.name))
      && CallTool(closed, toolName, params, invoke) == Err(NotEstablished(c.server.name))
  {
  }

  /** Leaving a stack releases each of its contexts and nothing else. */
  lemma ReleaseOrderMembers(stack: seq<Resource>, x: Resource)
    ensures x in ReleaseOrder(stack) <==> x in stack
  {
    var out := ReleaseOrder(stack);
    if x in stack {
      var i :| 0 <= i < |stack| && stack[i] == x;
      assert out[|stack| - 1 - i] == x;
    }
    if x in out {
      var i :| 0 <= i < |out| && out[i] == x;
      assert stack[|stack| - 1 - i] == x;
    }
  }

  /** Leaving a stack that grew by one context releases that context first. */
  lemma {:induction false} ReleaseOrderPush(stack: seq<Resource>, r: Resource)
    ensures ReleaseOrder(stack + [r]) == [r] + ReleaseOrder(stack)
  {
    assert (stack + [r])[..|stack|] == stack;
  }
}

=== FILE: odict.dfy ===
/** Insertion-ordered dictionaries with distinct keys: Python's `dict`, whose
    iteration order is the order in which keys were first inserted. */
module OrderedDicts {
  import opened Wrappers

  /** No key occurs twice. */
  predicate DistinctKeys<K(==), V>(d: seq<(K, V)>) {
    forall i, j :: 0 <= i < j < |d| ==> d[i].0 != d[j].0
  }

  type ODict<K(==), V> = d: seq<(K, V)> | DistinctKeys(d) witness []

  /** The keys, in iteration order. */
  function Keys<K, V>(d: seq<(K, V)>): (ks: seq<K>)
    ensures |ks| == |d|
    ensures forall i :: 0 <= i < |d| ==> ks[i] == d[i].0
  {
    seq(|d|, i requires 0 <= i < |d| => d[i].0)
  }

  /** `d.get(k)`: the value stored under `k`, if any. */
  function Lookup<K(==), V>(d: seq<(K, V)>, k: K): (r: Option<V>)
    ensures r.Some? <==> k in Keys(d)
    ensures r.Some? ==> (k, r.value) in d
  {
    if |d| == 0 then None
    else if d[0].0 == k then Some(d[0].1)
    else
      assert Keys(d) == [d[0].0] + Keys(d[1..]);
      Lookup(d[1..], k)
  }

  /** The position of a key. */
  function IndexOf<K(==), V>(d: seq<(K, V)>, k: K): (i: nat)
    requires k in Keys(d)
    ensures i < |d| && d[i].0 == k
  {
    if d[0].0 == k then 0
    else
      assert Keys(d) == [d[0].0] + Keys(d[1..]);
      1 + IndexOf(d[1..], k)
  }

  /** `d[k] = v`: an existing key keeps its position and gets the new value,
      a new key is appended at the end. */
  function Put<K(==), V>(d: ODict<K, V>, k: K, v: V): (r: ODict<K, V>)
    ensures k in Keys(d) ==> Keys(r) == Keys(d)
    ensures k !in Keys(d) ==> r == d + [(k, v)]
    ensures Keys(d) <= Keys(r)
    ensures (k, v) in r
    ensures forall e :: e in r ==> e in d || e == (k, v)
  {
    if k in Keys(d) then
      var r := d[IndexOf(d, k) := (k, v)];
      assert Keys(r) == Keys(d);
      r
    else
      var r := d + [(k, v)];
      assert Keys(r) == Keys(d) + [k];
      r
  }

  /** Storing under `k` leaves every other key's value as it was. */
  lemma PutKeepsOthers<K, V>(d: ODict<K, V>, k: K, v: V, k': K)
    requires k' != k
    ensures Lookup(Put(d, k, v), k') == Lookup(d, k')
  {
    var r := Put(d, k, v);
    if k' in Keys(d) {
      var i := IndexOf(d, k');
      assert d[i] in r by {
        if k in Keys(d) {
          assert r[i] == d[i];
        } else {
          assert r[i] == d[i];
        }
      }
      LookupFinds(d, i);
      LookupFinds(r, IndexOf(r, k'));
    } else {
      assert k' !in Keys(r);
    }
  }

  /** Prepends an entry whose key is new. */
  function Cons<K(==), V>(e: (K, V), d: ODict<K, V>): (r: ODict<K, V>)
    requires e.0 !in Keys(d)
    ensures r == [e] + d
    ensures Keys(r) == [e.0] + Keys(d)
  {
    var r := [e] + d;
    assert forall i :: 0 < i < |r| ==> r[i] == d[i - 1];
    r
  }

  /** Stores every pair of `entries` in turn, as a `for` loop of `d[k] = v`. */
  function PutAll<K(==), V>(d: ODict<K, V>, entries: seq<(K, V)>): (r: ODict<K, V>)
    decreases |entries|
  {
    if |entries| == 0 then d else PutAll(Put(d, entries[0].0, entries[0].1), entries[1..])
  }

  /** Storing the entries of a dictionary into an empty one rebuilds it. */
  lemma {:induction false} PutAllIntoEmpty<K(!new), V>(entries: ODict<K, V>)
    ensures PutAll([], entries) == entries
  {
    PutAllAppends([], entries);
  }

  lemma {:induction false} PutAllAppends<K(!new), V>(d: ODict<K, V>, entries: seq<(K, V)>)
    requires DistinctKeys(d + entries)
    ensures PutAll(d, entries) == d + entries
    decreases |entries|
  {
    if |entries| > 0 {
      assert Keys(d + entries) == Keys(d) + Keys(entries);
      forall j | 0 <= j < |d|
        ensures d[j].0 != entries[0].0
      {
        assert (d + entries)[j] == d[j] && (d + entries)[|d|] == entries[0];
      }
      assert entries[0].0 !in Keys(d);
      var d' := Put(d, entries[0].0, entries[0].1);
      assert d' == d + [entries[0]];
      assert d' + entries[1..] == d + entries;
      PutAllAppends(d', entries[1..]);
    }
  }

  /** In a dictionary, the key at a position looks up the value at that position. */
  lemma {:induction false} LookupFinds<K, V>(d: ODict<K, V>, i: nat)
    requires i < |d|
    ensures Lookup(d, d[i].0) == Some(d[i].1)
  {
    if i > 0 {
      var d': ODict<K, V> := d[1..];
      LookupFinds(d', i - 1);
    }
  }

  /** `a` is `b` with some elements left out: the order of `b` is kept. */
  predicate IsSubsequence<T(==)>(a: seq<T>, b: seq<T>)
    decreases |b|
  {
    if |a| == 0 then true
    else if |b| == 0 then false
    else if a[0] == b[0] then IsSubsequence(a[1..], b[1..])
    else IsSubsequence(a, b[1..])
  }

  /** Every element of a subsequence occurs in the sequence it was taken from. */
  lemma {:induction false} SubsequenceMembers<T>(a: seq<T>, b: seq<T>, x: T)
    requires IsSubsequence(a, b) && x in a
    ensures x in b
    decreases |b|
  {
    if a[0] == b[0] {
      if x != a[0] {
        assert x in a[1..];
        SubsequenceMembers(a[1..], b[1..], x);
      }
    } else {
      SubsequenceMembers(a, b[1..], x);
    }
  }

  /** A sequence without members is empty. */
  lemma NoMembersMeansEmpty<T>(s: seq<T>)
    requires forall e :: e !in s
    ensures s == []
  {
    if |s| > 0 {
      FirstIsMember(s);
      assert false;
    }
  }

  /** The first element of a non-empty sequence is one of its members. */
  lemma FirstIsMember<T>(s: seq<T>)
    requires |s| > 0
    ensures s[0] in s
  {
  }
}

=== FILE: retrieval.dfy ===
/** `SparseRetriever` (retriever.py) reduced to what the router relies on:
    a corpus of documents with ids, and a ranker that answers a query with
    positions in that corpus. The BM25 scoring itself is the ranker's business
    and is not modelled. */
module Retrieval {

  /** One corpus entry: its id and what its text is rendered from. */
  datatype Doc<D> = Doc(id: string, content: D)

  /** Given the corpus, the query and how many results to return, the positions
      of the best-scoring documents, best first. */
  type Ranker<!D> = (seq<Doc<D>>, string, nat) -> seq<nat>

  /** What the ranking library guarantees: at most `k` positions, each inside the
      corpus, none repeated. */
  predicate ValidHits(hits: seq<nat>, n: nat, k: nat) {
    && |hits| <= k
    && (forall i :: 0 <= i < |hits| ==> hits[i] < n)
    && (forall i, j :: 0 <= i < j < |hits| ==> hits[i] != hits[j])
  }

  ghost predicate Honest<D(!new)>(rank: Ranker<D>) {
    forall corpus, query, k :: ValidHits(rank(corpus, query, k), |corpus|, k)
  }

  function Min(a: nat, b: nat): nat {
    if a <= b then a else b
  }

  /** The positions `search` asks for: never more than the corpus holds. */
  function Hits<D>(corpus: seq<Doc<D>>, query: string, topK: nat, rank: Ranker<D>): seq<nat> {
    rank(corpus, query, Min(topK, |corpus|))
  }

  /** `search`: the ids of the ranked documents, in ranked order. */
  function Search<D(!new)>(corpus: seq<Doc<D>>, query: string, topK: nat, rank: Ranker<D>): (ids: seq<string>)
    requires Honest(rank)
    ensures |ids| <= topK && |ids| <= |corpus|
    ensures var hits := Hits(corpus, query, topK, rank);
      |ids| == |hits| && forall i :: 0 <= i < |hits| ==> hits[i] < |corpus| && ids[i] == corpus[hits[i]].id
  {
    var hits := Hits(corpus, query, topK, rank);
    assert ValidHits(hits, |corpus|, Min(topK, |corpus|));
    seq(|hits|, i requires 0 <= i < |hits| => corpus[hits[i]].id)
  }
}

=== FILE: routing.dfy ===
/** `Router` (router.py): the configured servers, the connections that
    succeeded, and the two indices built from them. The router is a state
    record; connect outcomes, cleanup outcomes, the ranker and the sessions'
    tool calls come in as parameters. */
module Routing {
  import opened Wrappers
  import opened OrderedDicts
  import opened Schemas
  import opened Connections
  import opened Retrieval

  /** The `mcpServers` object of the configuration: server name to raw entry. */
  type Config = ODict<string, RawConfig>

  /** What `initialize` builds for routing: `_servers`, `_tools`, and the
      `Server` still bound to the loop variable `server` of its first loop, which
      the tool documents read. That is the last configured server, in the state
      its connect left it in; `None` when nothing is configured and the name was
      never bound. */
  datatype Index = Index(servers: ODict<string, Server>, tools: ODict<string, Tool>, leftover: Option<Server>)

  datatype Router = Router(config: Config, connections: ODict<string, Connection>, index: Option<Index>)

  /** The content a tool document is rendered from: its owning server's name and the tool. */
  datatype ToolDoc = ToolDoc(serverName: string, tool: Tool)

  /** The content a tool document is rendered from as router.py builds it: the
      leftover `server` of `initialize` and the tool. */
  datatype LeftoverToolDoc = LeftoverToolDoc(server: Option<Server>, tool: Tool)

  /** One entry of a `route_tools` answer. */
  datatype RoutedTool = RoutedTool(serverName: string, tool: Tool)

  /** The outcome of connecting every built connection, in order: the ones that
      connected, in their connected state, and the names whose failure was logged. */
  datatype Settled = Settled(connected: ODict<string, Connection>, failed: seq<string>)

  /** The state after `initialize`, whether it returned or raised, which servers
      a connect was attempted for, and which failed. */
  datatype InitOutcome = InitOutcome(router: Router, result: Res<()>, attempted: seq<string>, failed: seq<string>)

  /** The servers closed, in closing order, and every resource released, in
      release order. */
  datatype Closing = Closing(closed: seq<string>, released: seq<Resource>)

  /** The state after `aclose`, the servers closed in closing order, and every
      resource released, in release order. */
  datatype CloseOutcome = CloseOutcome(router: Router, closed: seq<string>, released: seq<Resource>)

  /** `Router(config)`. */
  function NewRouter(config: Config): (r: Router)
    ensures r.config == config && r.connections == [] && r.index.None?
  {
    Router(config, [], None)
  }

  // ---------------------------------------------------------------------------
  // Qualified tool ids

  /** The id under which a tool is indexed: `f"{name}/{tool.name}"`. */
  function QualifiedId(server: string, tool: string): (id: string)
    ensures |id| == |server| + 1 + |tool|
    ensures id[..|server|] == server && id[|server|] == '/' && id[|server| + 1..] == tool
  {
    server + "/" + tool
  }

  /** `id.split("/")[0]`: the longest prefix of `id` without a slash. */
  function FirstSegment(id: string): (r: string)
    ensures r <= id && '/' !in r
    ensures |r| < |id| ==> id[|r|] == '/'
  {
    if |id| == 0 || id[0] == '/' then "" else [id[0]] + FirstSegment(id[1..])
  }

  /** Splitting a qualified id at its first slash recovers the server name,
      provided the name has no slash of its own. */
  lemma FirstSegmentOfQualifiedId(server: string, tool: string)
    requires '/' !in server
    ensures FirstSegment(QualifiedId(server, tool)) == server
  {
    var id := QualifiedId(server, tool);
    var r := FirstSegment(id);
    assert id[|server|] == '/';
  }

  /** Tools of different servers get different ids, even when the tools share
      a name, as long as server names have no slash. */
  lemma QualifiedIdsDistinct(a: string, x: string, b: string, y: string)
    requires '/' !in a && '/' !in b
    requires a != b || x != y
    ensures QualifiedId(a, x) != QualifiedId(b, y)
  {
    FirstSegmentOfQualifiedId(a, x);
    FirstSegmentOfQualifiedId(b, y);
    if a == b {
      assert QualifiedId(a, x)[|a| + 1..] == x;
      assert QualifiedId(b, y)[|b| + 1..] == y;
    }
  }

  /** With a slash in a server name the scheme breaks: two different
      (server, tool) pairs share an id, and splitting gives the wrong server. */
  lemma SlashInServerNameCollides()
    ensures QualifiedId("a/b", "t") == QualifiedId("a", "b/t")
    ensures FirstSegment(QualifiedId("a/b", "t")) == "a"
  {
    assert QualifiedId("a/b", "t") == "a/b/t";
    assert FirstSegment("a/b/t") == "a" + FirstSegment("/b/t");
  }

  // ---------------------------------------------------------------------------
  // initialize

  /** The first loop of `initialize`: a validated `Server` and a fresh connection
      for every entry, in config order; the first invalid entry raises. */
  function BuildConnections(config: Config): (r: Res<ODict<string, Connection>>)
    ensures r.Err? <==> exists i :: 0 <= i < |config| && !Accepted(config[i].1)
    ensures r.Err? ==> r.error == MissingCommandAndUrl
    ensures r.Ok? ==> Keys(r.value) == Keys(config)
    ensures r.Ok? ==> forall i :: 0 <= i < |config| ==>
      r.value[i].1 == NewConnection(NewServer(config[i].0, ParseConfig(config[i].1).value))
  {
    if |config| == 0 then Ok([])
    else
      var name := config[0].0;
      var tail: Config := config[1..];
      assert Keys(config) == [name] + Keys(tail);
      var cfg :- ParseConfig(config[0].1);
      var rest :- BuildConnections(tail);
      Ok(Cons((name, NewConnection(NewServer(name, cfg))), rest))
  }

  /** The second loop of `initialize`: connect each connection in turn, keeping
      what each connect returned or raised; a raise does not stop the loop. */
  function ConnectEach(conns: ODict<string, Connection>, backend: string -> Backend): (results: seq<Transition>)
    ensures |results| == |conns|
    ensures forall j :: 0 <= j < |conns| ==> results[j] == Connect(conns[j].1, backend(conns[j].0))
  {
    seq(|conns|, j requires 0 <= j < |conns| => Connect(conns[j].1, backend(conns[j].0)))
  }

  /** The third loop of `initialize`: pair names with results; a connection that
      returned is kept in its connected state, a failure is logged and dropped. */
  function Settle(conns: ODict<string, Connection>, results: seq<Transition>): (s: Settled)
    requires |results| == |conns|
    ensures |s.connected| + |s.failed| == |conns|
    ensures forall e :: e in s.connected ==> e.0 in Keys(conns)
  {
    if |conns| == 0 then Settled([], [])
    else
      var tail: ODict<string, Connection> := conns[1..];
      var rest := Settle(tail, results[1..]);
      assert forall e :: e in rest.connected ==> e.0 in Keys(conns) && e.0 != conns[0].0 by {
        forall e | e in rest.connected ensures e.0 in Keys(conns) && e.0 != conns[0].0 {
          var k :| 0 <= k < |tail| && Keys(tail)[k] == e.0;
          assert conns[k + 1].0 == e.0;
        }
      }
      if results[0].result.Ok? then
        Settled(Cons((conns[0].0, results[0].conn), rest.connected), rest.failed)
      else
        Settled(rest.connected, [conns[0].0] + rest.failed)
  }

  /** The connections `Settle` keeps are exactly those whose connect returned,
      each in the state its connect left it in. */
  lemma {:induction false} SettleConnected(conns: ODict<string, Connection>, results: seq<Transition>)
    requires |results| == |conns|
    ensures forall e :: e in Settle(conns, results).connected <==>
      exists j :: 0 <= j < |conns| && results[j].result.Ok? && e == (conns[j].0, results[j].conn)
    decreases |conns|
  {
    if |conns| > 0 {
      var tail: ODict<string, Connection> := conns[1..];
      SettleConnected(tail, results[1..]);
      var rest := Settle(tail, results[1..]).connected;
      var connected := Settle(conns, results).connected;
      forall e ensures e in connected <==> exists j :: 0 <= j < |conns| && results[j].result.Ok? && e == (conns[j].0, results[j].conn) {
        if e in rest {
          var j :| 0 <= j < |tail| && results[1..][j].result.Ok? && e == (tail[j].0, results[1..][j].conn);
          assert results[j + 1].result.Ok? && e == (conns[j + 1].0, results[j + 1].conn);
        }
        if exists j :: 0 <= j < |conns| && results[j].result.Ok? && e == (conns[j].0, results[j].conn) {
          var j :| 0 <= j < |conns| && results[j].result.Ok? && e == (conns[j].0, results[j].conn);
          if j > 0 {
            assert results[1..][j - 1].result.Ok? && e == (tail[j - 1].0, results[1..][j - 1].conn);
          }
        }
      }
    }
  }

  /** The names `Settle` logs are exactly those whose connect raised. */
  lemma {:induction false} SettleFailed(conns: ODict<string, Connection>, results: seq<Transition>)
    requires |results| == |conns|
    ensures forall n :: n in Settle(conns, results).failed <==>
      exists j :: 0 <= j < |conns| && results[j].result.Err? && n == conns[j].0
    decreases |conns|
  {
    if |conns| > 0 {
      var tail: ODict<string, Connection> := conns[1..];
      SettleFailed(tail, results[1..]);
      var rest := Settle(tail, results[1..]).failed;
      var failed := Settle(conns, results).failed;
      forall n ensures n in failed <==> exists j :: 0 <= j < |conns| && results[j].result.Err? && n == conns[j].0 {
        if n in rest {
          var j :| 0 <= j < |tail| && results[1..][j].result.Err? && n == tail[j].0;
          assert results[j + 1].result.Err? && n == conns[j + 1].0;
        }
        if exists j :: 0 <= j < |conns| && results[j].result.Err? && n == conns[j].0 {
          var j :| 0 <= j < |conns| && results[j].result.Err? && n == conns[j].0;
          if j > 0 {
            assert results[1..][j - 1].result.Err? && n == tail[j - 1].0;
          }
        }
      }
    }
  }

  /** `Settle` keeps both lists in configuration order. */
  lemma SettleKeepsOrder(conns: ODict<string, Connection>, results: seq<Transition>)
    requires |results| == |conns|
    ensures var s := Settle(conns, results);
      IsSubsequence(Keys(s.connected), Keys(conns)) && IsSubsequence(s.failed, Keys(conns))
  {
    ConnectedInOrder(conns, results);
    FailedInOrder(conns, results);
  }

  /** The kept connections appear in configuration order. */
  lemma {:induction false} ConnectedInOrder(conns: ODict<string, Connection>, results: seq<Transition>)
    requires |results| == |conns|
    ensures IsSubsequence(Keys(Settle(conns, results).connected), Keys(conns))
    decreases |conns|
  {
    if |conns| > 0 {
      var tail: ODict<string, Connection> := conns[1..];
      ConnectedInOrder(tail, results[1..]);
      var rest := Settle(tail, results[1..]).connected;
      var ks := Keys(conns);
      assert ks[0] == conns[0].0 && ks[1..] == Keys(tail);
      assert forall e :: e in rest ==> e.0 != conns[0].0;
      var connected := Settle(conns, results).connected;
      if results[0].result.Ok? {
        assert connected[1..] == rest;
        assert Keys(connected)[0] == ks[0] && Keys(connected)[1..] == Keys(rest);
      } else {
        assert connected == rest;
        assert |rest| > 0 ==> rest[0] in rest && Keys(rest)[0] != ks[0];
      }
    }
  }

  /** The logged failures appear in configuration order. */
  lemma {:induction false} FailedInOrder(conns: ODict<string, Connection>, results: seq<Transition>)
    requires |results| == |conns|
    ensures IsSubsequence(Settle(conns, results).failed, Keys(conns))
    decreases |conns|
  {
    if |conns| > 0 {
      var tail: ODict<string, Connection> := conns[1..];
      FailedInOrder(tail, results[1..]);
      var rest := Settle(tail, results[1..]).failed;
      var ks := Keys(conns);
      assert ks[0] == conns[0].0 && ks[1..] == Keys(tail);
      var failed := Settle(conns, results).failed;
      if results[0].result.Ok? {
        assert failed == rest;
        SettleFailed(tail, results[1..]);
        assert forall j :: 0 <= j < |tail| ==> tail[j] == conns[j + 1];
        assert conns[0].0 !in rest;
        assert |rest| > 0 ==> rest[0] in rest;
      } else {
        assert failed[0] == ks[0] && failed[1..] == rest;
      }
    }
  }

  // ---------------------------------------------------------------------------
  // get_servers, get_tools

  /** `get_servers`: each connected name with its connection's server. */
  function GetServers(r: Router): (servers: ODict<string, Server>)
    ensures Keys(servers) == Keys(r.connections)
    ensures forall i :: 0 <= i < |servers| ==> servers[i].1 == r.connections[i].1.server
  {
    var servers := seq(|r.connections|, i requires 0 <= i < |r.connections| => (r.connections[i].0, r.connections[i].1.server));
    assert Keys(servers) == Keys(r.connections);
    servers
  }

  /** A connection whose tool list can be iterated: it has a session and a
      stored tool list. */
  predicate Live(c: Connection) {
    c.session.Some? && c.server.tools.Some?
  }

  /** `get_tools` looks at a server unless a non-empty name was asked for and
      this is another server. */
  predicate Selected(filter: Option<string>, name: string) {
    filter.None? || filter.value == name
  }

  /** The entry is one of the named connection's tools under its qualified id. */
  predicate Owns(name: string, c: Connection, entry: (string, Tool)) {
    && Live(c)
    && entry.1 in c.server.tools.value
    && entry.0 == QualifiedId(name, entry.1.name)
  }

  /** The inner loop of `get_tools`: store each tool of one server under its
      qualified id; a later tool with the same id replaces an earlier one. */
  function AddServerTools(acc: ODict<string, Tool>, name: string, tools: seq<Tool>): (r: ODict<string, Tool>)
    ensures forall e :: e in r ==> e in acc || (e.1 in tools && e.0 == QualifiedId(name, e.1.name))
    ensures forall t :: t in tools ==> QualifiedId(name, t.name) in Keys(r)
    ensures Keys(acc) <= Keys(r)
    decreases |tools|
  {
    if |tools| == 0 then acc
    else
      var acc' := Put(acc, QualifiedId(name, tools[0].name), tools[0]);
      assert QualifiedId(name, tools[0].name) in Keys(acc');
      AddServerTools(acc', name, tools[1..])
  }

  /** The outer loop of `get_tools`, from connection `from` on: a selected
      connection's tools are added; one without a session or without a tool
      list raises. */
  function CollectTools(conns: ODict<string, Connection>, filter: Option<string>, from: nat, acc: ODict<string, Tool>): (r: Res<ODict<string, Tool>>)
    requires from <= |conns|
    ensures r.Err? <==> exists j :: from <= j < |conns| && Selected(filter, conns[j].0) && !Live(conns[j].1)
    ensures r.Err? ==> r.error.NotEstablished? || r.error.ToolsNotIterable?
    ensures r.Ok? ==> forall e :: e in r.value ==>
      e in acc || exists j :: from <= j < |conns| && Selected(filter, conns[j].0) && Owns(conns[j].0, conns[j].1, e)
    ensures r.Ok? ==> forall j, t :: from <= j < |conns| && Selected(filter, conns[j].0) && Live(conns[j].1) && t in conns[j].1.server.tools.value ==>
      QualifiedId(conns[j].0, t.name) in Keys(r.value)
    ensures r.Ok? ==> Keys(acc) <= Keys(r.value)
    decreases |conns| - from
  {
    if from == |conns| then Ok(acc)
    else if !Selected(filter, conns[from].0) then CollectTools(conns, filter, from + 1, acc)
    else match ListTools(conns[from].1)
      case Err(e) => Err(e)
      case Ok(None) => Err(ToolsNotIterable(conns[from].0))
      case Ok(Some(tools)) =>
        var name := conns[from].0;
        var acc' := AddServerTools(acc, name, tools);
        var rest := CollectTools(conns, filter, from + 1, acc');
        assert Live(conns[from].1) && tools == conns[from].1.server.tools.value;
        assert rest.Ok? ==> forall t :: t in tools ==> QualifiedId(name, t.name) in Keys(rest.value) by {
          if rest.Ok? {
            forall t | t in tools ensures QualifiedId(name, t.name) in Keys(rest.value) {
              var k :| 0 <= k < |Keys(acc')| && Keys(acc')[k] == QualifiedId(name, t.name);
              assert Keys(rest.value)[k] == Keys(acc')[k];
            }
          }
        }
        rest
  }

  /** The server filter `get_tools` applies: `if server_name` is false for both
      `None` and `""`. */
  function ToolFilter(serverName: Option<string>): (f: Option<string>)
    ensures f.Some? <==> serverName.Some? && serverName.value != ""
    ensures f.Some? ==> f == serverName
  {
    if serverName.Some? && serverName.value != "" then serverName else None
  }

  /** `get_tools(server_name)`: the tools of every connected server, or of the
      one named, keyed by qualified id. A name that is not configured raises;
      a configured name that did not connect has no tools. */
  function GetTools(r: Router, serverName: Option<string>): (res: Res<ODict<string, Tool>>)
    ensures res.Err? ==> res.error.NotInConfiguration? || res.error.NotEstablished? || res.error.ToolsNotIterable?
    ensures var f := ToolFilter(serverName);
      f.Some? && f.value !in Keys(r.config) ==> res == Err(NotInConfiguration(f.value))
    ensures var f := ToolFilter(serverName);
      (f.None? || f.value in Keys(r.config)) ==>
        (res.Err? <==> exists j :: 0 <= j < |r.connections| && Selected(f, r.connections[j].0) && !Live(r.connections[j].1))
    ensures var f := ToolFilter(serverName);
      res.Ok? ==> forall e :: e in res.value ==>
        exists j :: 0 <= j < |r.connections| && Selected(f, r.connections[j].0) && Owns(r.connections[j].0, r.connections[j].1, e)
    ensures var f := ToolFilter(serverName);
      res.Ok? ==> forall j, t :: 0 <= j < |r.connections| && Selected(f, r.connections[j].0) && Live(r.connections[j].1) && t in r.connections[j].1.server.tools.value ==>
        QualifiedId(r.connections[j].0, t.name) in Keys(res.value)
  {
    var filter := ToolFilter(serverName);
    if filter.Some? && filter.value !in Keys(r.config) then Err(NotInConfiguration(filter.value))
    else CollectTools(r.connections, filter, 0, [])
  }

  /** The `Server` the loop variable `server` of the first loop of `initialize`
      is left bound to: the last built connection's server, in the state its
      connect leaves it in. */
  function Leftover(conns: ODict<string, Connection>, backend: string -> Backend): (s: Option<Server>)
    ensures s.Some? <==> |conns| > 0
    ensures s.Some? ==>
      var last := conns[|conns| - 1].1.server;
      s.value.name == last.name && s.value.config == last.config
  {
    if |conns| == 0 then None
    else
      var last := conns[|conns| - 1];
      Some(Connect(last.1, backend(last.0)).conn.server)
  }

  /** `initialize`: build every connection first, then connect them one by one,
      keep those that connected, and index their servers and tools. An invalid
      entry raises before any connect is attempted; a failed connect is only
      logged. */
  function Initialize(r: Router, backend: string -> Backend): (o: InitOutcome)
    ensures (exists i :: 0 <= i < |r.config| && !Accepted(r.config[i].1)) <==>
      o.result == Err(MissingCommandAndUrl)
    ensures o.result == Err(MissingCommandAndUrl) ==> o.attempted == [] && o.router == r
    ensures o.result != Err(MissingCommandAndUrl) ==>
      o.attempted == Keys(r.config) && |o.failed| <= |o.attempted| && o.router.config == r.config
    ensures o.result.Ok? ==> o.router.index.Some? && Keys(o.router.index.value.servers) == Keys(o.router.connections)
    ensures o.result.Ok? ==>
      var leftover := o.router.index.value.leftover;
      && (leftover.Some? <==> |r.config| > 0)
      && (leftover.Some? ==>
            var last := r.config[|r.config| - 1];
            leftover.value.name == last.0 && leftover.value.config == ParseConfig(last.1).value)
  {
    match BuildConnections(r.config)
    case Err(e) => InitOutcome(r, Err(e), [], [])
    case Ok(conns) =>
      var settled := Settle(conns, ConnectEach(conns, backend));
      var leftover := Leftover(conns, backend);
      var r1 := r.(connections := PutAll(r.connections, settled.connected));
      match GetTools(r1, None)
      case Err(e) => InitOutcome(r1, Err(e), Keys(conns), settled.failed)
      case Ok(tools) => InitOutcome(r1.(index := Some(Index(GetServers(r1), tools, leftover))), Ok(()), Keys(conns), settled.failed)
  }

  // ---------------------------------------------------------------------------
  // route_servers, route_tools

  /** The server corpus: one document per entry of `_servers`. */
  function ServerCorpus(servers: ODict<string, Server>): (corpus: seq<Doc<Server>>)
    ensures |corpus| == |servers|
    ensures forall i :: 0 <= i < |servers| ==> corpus[i] == Doc(servers[i].0, servers[i].1)
  {
    seq(|servers|, i requires 0 <= i < |servers| => Doc(servers[i].0, servers[i].1))
  }

  /** The corrected tool corpus: one document per entry of `_tools`, labelled
      with the server the qualified id names. */
  function ToolCorpus(tools: ODict<string, Tool>): (corpus: seq<Doc<ToolDoc>>)
    ensures |corpus| == |tools|
    ensures forall i :: 0 <= i < |tools| ==>
      && corpus[i].id == tools[i].0 && corpus[i].content.tool == tools[i].1
      && corpus[i].content.serverName <= tools[i].0 && '/' !in corpus[i].content.serverName
      && (|corpus[i].content.serverName| < |tools[i].0| ==> tools[i].0[|corpus[i].content.serverName|] == '/')
  {
    seq(|tools|, i requires 0 <= i < |tools| => Doc(tools[i].0, ToolDoc(FirstSegment(tools[i].0), tools[i].1)))
  }

  /** The tool corpus as line 154 of router.py builds it: the server field is
      the variable `server` left over from the first loop of `initialize`,
      which is the last configured server, whichever server owns the tool. */
  function ToolCorpusAsWritten(tools: ODict<string, Tool>, leftover: Option<Server>): (corpus: seq<Doc<LeftoverToolDoc>>)
    ensures |corpus| == |tools|
    ensures forall i :: 0 <= i < |tools| ==>
      corpus[i].id == tools[i].0 && corpus[i].content == LeftoverToolDoc(leftover, tools[i].1)
  {
    seq(|tools|, i requires 0 <= i < |tools| => Doc(tools[i].0, LeftoverToolDoc(leftover, tools[i].1)))
  }

  /** `route_servers`: the servers the ranker picks, in ranked order. */
  function RouteServers(r: Router, query: string, topK: nat, rank: Ranker<Server>): (res: Res<seq<Server>>)
    requires Honest(rank)
    ensures r.index.None? ==> res == Err(NotInitialized)
    ensures r.index.Some? ==> res.Ok? && |res.value| <= topK && |res.value| <= |r.index.value.servers|
    ensures r.index.Some? ==>
      var servers := r.index.value.servers;
      var hits := Hits(ServerCorpus(servers), query, topK, rank);
      |res.value| == |hits| && forall i :: 0 <= i < |hits| ==> hits[i] < |servers| && res.value[i] == servers[hits[i]].1
  {
    if r.index.None? then Err(NotInitialized)
    else
      var servers := r.index.value.servers;
      var corpus := ServerCorpus(servers);
      var ids := Search(corpus, query, topK, rank);
      var hits := Hits(corpus, query, topK, rank);
      assert forall i :: 0 <= i < |ids| ==> Lookup(servers, ids[i]) == Some(servers[hits[i]].1) by {
        forall i | 0 <= i < |ids| {
          LookupFinds(servers, hits[i]);
        }
      }
      Ok(seq(|ids|, i requires 0 <= i < |ids| => Lookup(servers, ids[i]).value))
  }

  /** The answer `route_tools` builds from the ranked documents of a tool
      corpus: each picked tool, with the server name read off its qualified id. */
  function RankTools<D(!new)>(tools: ODict<string, Tool>, corpus: seq<Doc<D>>, query: string, topK: nat, rank: Ranker<D>): (res: seq<RoutedTool>)
    requires Honest(rank)
    requires |corpus| == |tools| && forall i :: 0 <= i < |tools| ==> corpus[i].id == tools[i].0
    ensures |res| <= topK && |res| <= |tools|
    ensures var hits := Hits(corpus, query, topK, rank);
      |res| == |hits| && forall i :: 0 <= i < |hits| ==>
        hits[i] < |tools| && res[i] == RoutedTool(FirstSegment(tools[hits[i]].0), tools[hits[i]].1)
  {
    var ids := Search(corpus, query, topK, rank);
    var hits := Hits(corpus, query, topK, rank);
    assert forall i :: 0 <= i < |ids| ==> Lookup(tools, ids[i]) == Some(tools[hits[i]].1) by {
      forall i | 0 <= i < |ids| {
        LookupFinds(tools, hits[i]);
      }
    }
    seq(|ids|, i requires 0 <= i < |ids| => RoutedTool(FirstSegment(ids[i]), Lookup(tools, ids[i]).value))
  }

  /** `route_tools` as written: the ranker sees the tool corpus of line 154,
      every document labelled with the leftover server; the answer carries each
      picked tool with the server name read off its qualified id. */
  function RouteTools(r: Router, query: string, topK: nat, rank: Ranker<LeftoverToolDoc>): (res: Res<seq<RoutedTool>>)
    requires Honest(rank)
    ensures r.index.None? ==> res == Err(NotInitialized)
    ensures r.index.Some? ==> res.Ok? && |res.value| <= topK && |res.value| <= |r.index.value.tools|
    ensures r.index.Some? ==>
      var tools := r.index.value.tools;
      var hits := Hits(ToolCorpusAsWritten(tools, r.index.value.leftover), query, topK, rank);
      |res.value| == |hits| && forall i :: 0 <= i < |hits| ==>
        hits[i] < |tools| && res.value[i] == RoutedTool(FirstSegment(tools[hits[i]].0), tools[hits[i]].1)
  {
    if r.index.None? then Err(NotInitialized)
    else Ok(RankTools(r.index.value.tools, ToolCorpusAsWritten(r.index.value.tools, r.index.value.leftover), query, topK, rank))
  }

  /** `route_tools` with the corrected corpus, each document labelled with the
      server its id names. */
  function RouteToolsCorrected(r: Router, query: string, topK: nat, rank: Ranker<ToolDoc>): (res: Res<seq<RoutedTool>>)
    requires Honest(rank)
    ensures r.index.None? ==> res == Err(NotInitialized)
    ensures r.index.Some? ==> res.Ok? && |res.value| <= topK && |res.value| <= |r.index.value.tools|
    ensures r.index.Some? ==>
      var tools := r.index.value.tools;
      var hits := Hits(ToolCorpus(tools), query, topK, rank);
      |res.value| == |hits| && forall i :: 0 <= i < |hits| ==>
        hits[i] < |tools| && res.value[i] == RoutedTool(FirstSegment(tools[hits[i]].0), tools[hits[i]].1)
  {
    if r.index.None? then Err(NotInitialized)
    else Ok(RankTools(r.index.value.tools, ToolCorpus(r.index.value.tools), query, topK, rank))
  }

  // ---------------------------------------------------------------------------
  // call_tool, aclose

  /** `call_tool`: refused for a server without an active connection, otherwise
      the connection's `call_tool` with `params or {}`, its raise passed on. */
  function CallTool<A, V>(r: Router, serverName: string, toolName: string, params: Option<map<string, A>>,
                          invoke: (Session, string, map<string, A>) -> Res<V>): (res: Res<V>)
    ensures serverName !in Keys(r.connections) ==> res == Err(NotConnected(serverName))
    ensures serverName in Keys(r.connections) ==>
      var c := r.connections[IndexOf(r.connections, serverName)].1;
      res == Connections.CallTool(c, toolName, params.GetOr(map[]), invoke)
  {
    match Lookup(r.connections, serverName)
    case None => Err(NotConnected(serverName))
    case Some(c) =>
      LookupFinds(r.connections, IndexOf(r.connections, serverName));
      Connections.CallTool(c, toolName, if params.None? then map[] else params.value, invoke)
  }

  /** Concatenation of a sequence of sequences, first to last. */
  function Flatten<T(!new)>(ss: seq<seq<T>>): (out: seq<T>)
    ensures |ss| > 0 ==> ss[0] <= out
    ensures forall x :: x in out <==> exists i :: 0 <= i < |ss| && x in ss[i]
  {
    if |ss| == 0 then [] else
      var rest := Flatten(ss[1..]);
      assert forall x :: x in rest <==> exists i :: 1 <= i < |ss| && x in ss[i] by {
        forall x | x in rest ensures exists i :: 1 <= i < |ss| && x in ss[i] {
          var k :| 0 <= k < |ss[1..]| && x in ss[1..][k];
          assert x in ss[k + 1];
        }
        forall x, i | 1 <= i < |ss| && x in ss[i] ensures x in rest {
          assert x in ss[1..][i - 1];
        }
      }
      ss[0] + rest
  }

  /** The exit stacks of `conns` in closing order, last connection first, each
      in its own release order. */
  function ReleaseBlocks(conns: seq<(string, Connection)>): (blocks: seq<seq<Resource>>)
    ensures |blocks| == |conns|
    ensures forall i :: 0 <= i < |conns| ==> blocks[i] == ReleaseOrder(conns[|conns| - 1 - i].1.exitStack)
  {
    seq(|conns|, i requires 0 <= i < |conns| => ReleaseOrder(conns[|conns| - 1 - i].1.exitStack))
  }

  /** Close the given connections, last first. */
  function CloseAll(conns: seq<(string, Connection)>, cleanup: string -> Step): (out: Closing)
    ensures |out.closed| == |conns|
    ensures forall i :: 0 <= i < |conns| ==> out.closed[i] == conns[|conns| - 1 - i].0
    ensures out.released == Flatten(ReleaseBlocks(conns))
  {
    if |conns| == 0 then Closing([], [])
    else
      var last := conns[|conns| - 1];
      var rest := CloseAll(conns[..|conns| - 1], cleanup);
      assert ReleaseBlocks(conns)[1..] == ReleaseBlocks(conns[..|conns| - 1]);
      Closing([last.0] + rest.closed, Close(last.1, cleanup(last.0)).released + rest.released)
  }

  /** `aclose`: close every connection in reverse insertion order, then empty
      the connection map. Nothing raises. */
  function Aclose(r: Router, cleanup: string -> Step): (o: CloseOutcome)
    ensures o.router == r.(connections := [])
    ensures |o.closed| == |r.connections|
    ensures forall i :: 0 <= i < |o.closed| ==> o.closed[i] == r.connections[|r.connections| - 1 - i].0
    ensures forall x :: x in o.released <==> exists j :: 0 <= j < |r.connections| && x in r.connections[j].1.exitStack
    ensures |r.connections| > 0 ==> ReleaseOrder(r.connections[|r.connections| - 1].1.exitStack) <= o.released
  {
    var out := CloseAll(r.connections, cleanup);
    ReleasedAreStacked(r.connections);
    CloseOutcome(r.(connections := []), out.closed, out.released)
  }

  /** What closing releases is exactly what the connections had on their exit
      stacks, the last connection's contexts first. */
  lemma ReleasedAreStacked(conns: seq<(string, Connection)>)
    ensures var released := Flatten(ReleaseBlocks(conns));
      forall x :: x in released <==> exists j :: 0 <= j < |conns| && x in conns[j].1.exitStack
    ensures |conns| > 0 ==> ReleaseOrder(conns[|conns| - 1].1.exitStack) <= Flatten(ReleaseBlocks(conns))
  {
    var blocks := ReleaseBlocks(conns);
    forall x | x in Flatten(blocks) ensures exists j :: 0 <= j < |conns| && x in conns[j].1.exitStack {
      var i :| 0 <= i < |blocks| && x in blocks[i];
      ReleaseOrderMembers(conns[|conns| - 1 - i].1.exitStack, x);
    }
    forall x, j | 0 <= j < |conns| && x in conns[j].1.exitStack ensures x in Flatten(blocks) {
      ReleaseOrderMembers(conns[j].1.exitStack, x);
      assert x in blocks[|conns| - 1 - j];
    }
  }
}

=== FILE: routing_lemmas.dfy ===
/** Properties of the router that relate several of its operations: what a
    fresh `initialize` leaves behind, and what routing, dispatch and closing
    then do with it. */
module RoutingLemmas {
  import opened Wrappers
  import opened OrderedDicts
  import opened Schemas
  import opened Connections
  import opened Retrieval
  import opened Routing

  /** The connect outcome `initialize` sees for configuration entry `i`. */
  predicate Connects(config: Config, backend: string -> Backend, i: nat)
    requires i < |config| && Accepted(config[i].1)
  {
    ConnectSucceeds(ParseConfig(config[i].1).value, backend(config[i].0))
  }

  /** Every server name of the configuration is free of slashes. */
  predicate SlashFreeNames(config: Config) {
    forall i :: 0 <= i < |config| ==> '/' !in config[i].0
  }

  /** The connections and failures `initialize` settles on for a valid
      configuration, before they are stored. */
  function SettledOf(config: Config, backend: string -> Backend): Settled
    requires forall i :: 0 <= i < |config| ==> Accepted(config[i].1)
  {
    var conns := BuildConnections(config).value;
    Settle(conns, ConnectEach(conns, backend))
  }

  /** `Settle` keeps the connection at position `i` exactly when its connect
      returned, and logs its name exactly when it raised. */
  lemma SettleByPosition(conns: ODict<string, Connection>, results: seq<Transition>)
    requires |results| == |conns|
    ensures var s := Settle(conns, results);
      forall i :: 0 <= i < |conns| ==>
        && (conns[i].0 in Keys(s.connected) <==> results[i].result.Ok?)
        && (conns[i].0 in s.failed <==> results[i].result.Err?)
    ensures var s := Settle(conns, results);
      forall e :: e in s.connected ==> exists j :: 0 <= j < |conns| && results[j].result.Ok? && e == (conns[j].0, results[j].conn)
  {
    var s := Settle(conns, results);
    SettleConnected(conns, results);
    SettleFailed(conns, results);
    forall i | 0 <= i < |conns|
      ensures conns[i].0 in Keys(s.connected) <==> results[i].result.Ok?
      ensures conns[i].0 in s.failed <==> results[i].result.Err?
    {
      if conns[i].0 in Keys(s.connected) {
        var e := s.connected[IndexOf(s.connected, conns[i].0)];
        assert e in s.connected;
      }
      if results[i].result.Ok? {
        assert (conns[i].0, results[i].conn) in s.connected;
      }
    }
  }

  /** What each connect of `initialize` returns for a valid configuration. */
  lemma ConnectEachFresh(config: Config, backend: string -> Backend)
    requires forall i :: 0 <= i < |config| ==> Accepted(config[i].1)
    ensures var conns := BuildConnections(config).value;
      var results := ConnectEach(conns, backend);
      forall i :: 0 <= i < |config| ==>
        && conns[i].0 == config[i].0
        && (results[i].result.Ok? <==> Connects(config, backend, i))
        && (results[i].result.Ok? ==> Live(results[i].conn) && results[i].conn.server.name == config[i].0)
  {
    var conns := BuildConnections(config).value;
    forall i | 0 <= i < |config|
      ensures conns[i].0 == config[i].0
    {
      assert Keys(conns)[i] == Keys(config)[i];
    }
    forall i | 0 <= i < |config| {
      FreshConnect(NewServer(config[i].0, ParseConfig(config[i].1).value), backend(config[i].0));
    }
  }

  /** Entry `i` of a valid configuration is kept exactly when its connect
      succeeds, and is logged as failed otherwise; every kept connection is
      live and keyed by its server's name. */
  lemma SettledOfFresh(config: Config, backend: string -> Backend)
    requires forall i :: 0 <= i < |config| ==> Accepted(config[i].1)
    ensures var s := SettledOf(config, backend);
      forall i :: 0 <= i < |config| ==>
        && (config[i].0 in Keys(s.connected) <==> Connects(config, backend, i))
        && (config[i].0 in s.failed <==> !Connects(config, backend, i))
    ensures var s := SettledOf(config, backend);
      forall j :: 0 <= j < |s.connected| ==>
        Live(s.connected[j].1) && s.connected[j].1.server.name == s.connected[j].0
  {
    var conns := BuildConnections(config).value;
    var results := ConnectEach(conns, backend);
    ConnectEachFresh(config, backend);
    SettleByPosition(conns, results);
    var s := Settle(conns, results);
    forall j | 0 <= j < |s.connected|
      ensures Live(s.connected[j].1) && s.connected[j].1.server.name == s.connected[j].0
    {
      assert s.connected[j] in s.connected;
    }
  }

  /** After `initialize` on a new router with a valid configuration: the
      connections are exactly the entries whose connect succeeded, in
      configuration order; every other entry was logged as failed and nothing
      was raised; each connection is live and keyed by its server's name; and
      the indices hold the connected servers and all their tools. */
  lemma InitializeFresh(config: Config, backend: string -> Backend)
    requires forall i :: 0 <= i < |config| ==> Accepted(config[i].1)
    ensures var o := Initialize(NewRouter(config), backend);
      && o.result.Ok?
      && o.attempted == Keys(config)
      && o.router.connections == SettledOf(config, backend).connected
      && o.failed == SettledOf(config, backend).failed
      && IsSubsequence(Keys(o.router.connections), Keys(config))
      && |o.router.connections| + |o.failed| == |config|
    ensures var o := Initialize(NewRouter(config), backend);
      && o.router.index.Some?
      && o.router.index.value.servers == GetServers(o.router)
      && GetTools(o.router, None) == Ok(o.router.index.value.tools)
  {
    var conns := BuildConnections(config).value;
    SettleKeepsOrder(conns, ConnectEach(conns, backend));
    var o := Initialize(NewRouter(config), backend);
    InitializeOutcome(config, backend);
    IndexOfFreshRouter(o.router, SettledOf(config, backend).connected);
  }

  /** What `initialize` returns for a valid configuration, assembled. */
  lemma InitializeOutcome(config: Config, backend: string -> Backend)
    requires forall i :: 0 <= i < |config| ==> Accepted(config[i].1)
    ensures var o := Initialize(NewRouter(config), backend);
      var s := SettledOf(config, backend);
      && o.result.Ok? && o.attempted == Keys(config) && o.failed == s.failed
      && o.router.connections == s.connected && o.router.config == config
      && o.router.index.Some?
      && o.router.index.value.servers == GetServers(o.router.(index := None))
      && GetTools(o.router.(index := None), None) == Ok(o.router.index.value.tools)
  {
    var conns := BuildConnections(config).value;
    var s := SettledOf(config, backend);
    PutAllIntoEmpty(s.connected);
    SettledOfFresh(config, backend);
    var r1 := NewRouter(config).(connections := s.connected);
    LiveConnectionsListTools(r1);
  }

  /** The indices of a router do not depend on its own index field. */
  lemma IndexOfFreshRouter(r: Router, connected: ODict<string, Connection>)
    requires r.index.Some?
    requires r.index.value.servers == GetServers(r.(index := None))
    requires GetTools(r.(index := None), None) == Ok(r.index.value.tools)
    ensures r.index.value.servers == GetServers(r)
    ensures GetTools(r, None) == Ok(r.index.value.tools)
  {
  }

  /** `get_tools()` cannot raise when every connection is live. */
  lemma LiveConnectionsListTools(r: Router)
    requires forall j :: 0 <= j < |r.connections| ==> Live(r.connections[j].1)
    ensures GetTools(r, None).Ok?
  {
  }

  /** An invalid entry makes `initialize` raise the validation error with no
      connect attempted and the router left as it was. */
  lemma InvalidEntryStopsInitialize(config: Config, backend: string -> Backend, i: nat)
    requires i < |config| && !Accepted(config[i].1)
    ensures var o := Initialize(NewRouter(config), backend);
      o.result == Err(MissingCommandAndUrl) && o.attempted == [] && o.router == NewRouter(config)
  {
  }

  /** The validation loop runs before any connect, so a rejected configuration
      gives the same outcome whatever the servers would have done. */
  lemma InvalidEntryIgnoresBackends(r: Router, b1: string -> Backend, b2: string -> Backend, i: nat)
    requires i < |r.config| && !Accepted(r.config[i].1)
    ensures Initialize(r, b1) == Initialize(r, b2)
  {
  }

  /** The named server has an active connection whose tool list holds `t`. */
  predicate ServedBy(r: Router, name: string, t: Tool) {
    exists j :: 0 <= j < |r.connections| && r.connections[j].0 == name && Live(r.connections[j].1) && t in r.connections[j].1.server.tools.value
  }

  /** `s` is the server of an active connection, stored under its own name. */
  predicate ConnectedServer(r: Router, s: Server) {
    exists j :: 0 <= j < |r.connections| && r.connections[j].1.server == s && r.connections[j].0 == s.name && Live(r.connections[j].1)
  }

  /** The state a successful `initialize` leaves a new router in: every
      connection is a configured, live server under its own name, and the
      indices are `get_servers()` and `get_tools()` of those connections. */
  predicate Ready(r: Router) {
    && r.index.Some?
    && IsSubsequence(Keys(r.connections), Keys(r.config))
    && (forall j :: 0 <= j < |r.connections| ==> Live(r.connections[j].1) && r.connections[j].1.server.name == r.connections[j].0)
    && r.index.value.servers == GetServers(r)
    && GetTools(r, None) == Ok(r.index.value.tools)
  }

  /** A valid configuration always initializes into the ready state. */
  lemma InitializeReady(config: Config, backend: string -> Backend)
    requires forall i :: 0 <= i < |config| ==> Accepted(config[i].1)
    ensures Ready(Initialize(NewRouter(config), backend).router)
  {
    InitializeFresh(config, backend);
    SettledOfFresh(config, backend);
  }

  /** In the ready state with slash-free server names, each entry of the tool
      index is a tool of the connected server its id starts with. */
  lemma ToolIndexOwned(r: Router)
    requires Ready(r) && SlashFreeNames(r.config)
    ensures forall i :: 0 <= i < |r.index.value.tools| ==>
      ServedBy(r, FirstSegment(r.index.value.tools[i].0), r.index.value.tools[i].1)
  {
    var tools := r.index.value.tools;
    forall i | 0 <= i < |tools|
      ensures ServedBy(r, FirstSegment(tools[i].0), tools[i].1)
    {
      assert tools[i] in tools;
      var j :| 0 <= j < |r.connections| && Owns(r.connections[j].0, r.connections[j].1, tools[i]);
      var name := r.connections[j].0;
      assert name in Keys(r.connections);
      SubsequenceMembers(Keys(r.connections), Keys(r.config), name);
      FirstSegmentOfQualifiedId(name, tools[i].1.name);
    }
  }

  /** Every tool `route_tools` returns in the ready state (slash-free names)
      belongs to an active connection of the server it is reported with, so
      `call_tool` with that server and tool name reaches that connection's
      session with `params or {}`. */
  lemma RoutedToolsAreCallable<A, V>(r: Router, query: string, topK: nat, rank: Ranker<LeftoverToolDoc>,
                                     params: Option<map<string, A>>, invoke: (Session, string, map<string, A>) -> Res<V>)
    requires Ready(r) && SlashFreeNames(r.config)
    requires Honest(rank)
    ensures var res := RouteTools(r, query, topK, rank);
      res.Ok? && forall i :: 0 <= i < |res.value| ==> ServedBy(r, res.value[i].serverName, res.value[i].tool)
    ensures var res := RouteTools(r, query, topK, rank);
      res.Ok? && forall i :: 0 <= i < |res.value| ==>
        var name := res.value[i].serverName;
        && name in Keys(r.connections)
        && var c := r.connections[IndexOf(r.connections, name)].1;
        && c.session.Some?
        && Routing.CallTool(r, name, res.value[i].tool.name, params, invoke) == invoke(c.session.value, res.value[i].tool.name, params.GetOr(map[]))
  {
    ToolIndexOwned(r);
    var res := RouteTools(r, query, topK, rank);
    forall i | 0 <= i < |res.value|
      ensures r.connections[IndexOf(r.connections, res.value[i].serverName)].1.session.Some?
    {
      var j :| 0 <= j < |r.connections| && r.connections[j].0 == res.value[i].serverName && Live(r.connections[j].1);
      assert r.connections[IndexOf(r.connections, res.value[i].serverName)].0 == r.connections[j].0;
    }
  }

  /** Every server `route_servers` returns in the ready state is the server of
      an active connection, with its tool list filled in. */
  lemma RoutedServersAreConnected(r: Router, query: string, topK: nat, rank: Ranker<Server>)
    requires Ready(r) && Honest(rank)
    ensures var res := RouteServers(r, query, topK, rank);
      res.Ok? && forall i :: 0 <= i < |res.value| ==> ConnectedServer(r, res.value[i])
  {
    var res := RouteServers(r, query, topK, rank);
    var hits := Hits(ServerCorpus(r.index.value.servers), query, topK, rank);
    forall i | 0 <= i < |res.value|
      ensures ConnectedServer(r, res.value[i])
    {
      assert res.value[i] == r.connections[hits[i]].1.server;
    }
  }

  /** The corrected tool corpus labels each document, in the ready state with
      slash-free names, with a connected server that serves the tool. */
  lemma ToolCorpusLabelsOwner(r: Router)
    requires Ready(r) && SlashFreeNames(r.config)
    ensures var corpus := ToolCorpus(r.index.value.tools);
      forall i :: 0 <= i < |corpus| ==> ServedBy(r, corpus[i].content.serverName, corpus[i].content.tool)
  {
    ToolIndexOwned(r);
  }

  /** After `initialize` on a new router with a valid, non-empty configuration,
      the leftover server the tool documents read is the last configured one. */
  lemma InitializeLeftover(config: Config, backend: string -> Backend)
    requires forall i :: 0 <= i < |config| ==> Accepted(config[i].1)
    requires |config| > 0
    ensures var index := Initialize(NewRouter(config), backend).router.index;
      index.Some? && index.value.leftover.Some? && index.value.leftover.value.name == config[|config| - 1].0
  {
    var r := NewRouter(config);
    var o := Initialize(r, backend);
    InitializeFresh(config, backend);
    assert o.result.Ok?;
    assert r.config == config;
  }

  /** In the ready state with slash-free names, if the leftover server is named
      `last`, every tool document as written carries that server, while the tool
      is served by the server its id names: for a tool of any other server the
      label is wrong. */
  lemma LeftoverLabelsEveryTool(r: Router, last: string)
    requires Ready(r) && SlashFreeNames(r.config)
    requires r.index.value.leftover.Some? && r.index.value.leftover.value.name == last
    ensures var corpus := ToolCorpusAsWritten(r.index.value.tools, r.index.value.leftover);
      forall i :: 0 <= i < |corpus| ==>
        var owner := FirstSegment(corpus[i].id);
        && corpus[i].content.server.value.name == last
        && ServedBy(r, owner, corpus[i].content.tool)
        && (owner != last ==> corpus[i].content.server.value.name != owner)
  {
    ToolIndexOwned(r);
  }

  /** As written, after `initialize` on a new router with a valid configuration
      of slash-free names, every tool document is labelled with the last
      configured server, so the document of a tool that any other server serves
      names the wrong server. */
  lemma ToolCorpusAsWrittenMislabels(config: Config, backend: string -> Backend)
    requires forall i :: 0 <= i < |config| ==> Accepted(config[i].1)
    requires SlashFreeNames(config)
    ensures var r := Initialize(NewRouter(config), backend).router;
      r.index.Some? &&
      var corpus := ToolCorpusAsWritten(r.index.value.tools, r.index.value.leftover);
      forall i :: 0 <= i < |corpus| ==>
        var owner := FirstSegment(corpus[i].id);
        && |config| > 0
        && corpus[i].content.server.Some?
        && corpus[i].content.server.value.name == config[|config| - 1].0
        && ServedBy(r, owner, corpus[i].content.tool)
        && (owner != config[|config| - 1].0 ==> corpus[i].content.server.value.name != owner)
  {
    var r := Initialize(NewRouter(config), backend).router;
    InitializeReady(config, backend);
    assert r.config == config;
    if |config| > 0 {
      InitializeLeftover(config, backend);
      LeftoverLabelsEveryTool(r, config[|config| - 1].0);
    } else {
      ToolIndexOwned(r);
      NoToolsWithoutConnections(r);
    }
  }

  /** A router with no configured server has no tools to index. */
  lemma NoToolsWithoutConnections(r: Router)
    requires Ready(r) && SlashFreeNames(r.config) && |r.config| == 0
    ensures r.index.value.tools == []
  {
  }

  /** The correction changes only what the ranker sees: given the same
      positions, the route over the corpus as written and the route over the
      corrected corpus give the same answer. */
  lemma RouteToolsCorrectedSameAnswer(r: Router, query: string, topK: nat, asWritten: Ranker<LeftoverToolDoc>, corrected: Ranker<ToolDoc>)
    requires Honest(asWritten) && Honest(corrected) && r.index.Some?
    requires Hits(ToolCorpusAsWritten(r.index.value.tools, r.index.value.leftover), query, topK, asWritten)
          == Hits(ToolCorpus(r.index.value.tools), query, topK, corrected)
    ensures RouteTools(r, query, topK, asWritten) == RouteToolsCorrected(r, query, topK, corrected)
  {
    var a := RouteTools(r, query, topK, asWritten).value;
    var c := RouteToolsCorrected(r, query, topK, corrected).value;
    assert |a| == |c| && forall i :: 0 <= i < |a| ==> a[i] == c[i];
    assert a == c;
  }

  /** Two connected servers offering tools with the same name get two distinct
      entries in the tool index, one per server. */
  lemma ToolsNamespacedByServer(r: Router, j1: nat, j2: nat, t1: Tool, t2: Tool)
    requires Ready(r) && SlashFreeNames(r.config)
    requires j1 < j2 < |r.connections|
    requires t1 in r.connections[j1].1.server.tools.value && t2 in r.connections[j2].1.server.tools.value
    ensures var id1 := QualifiedId(r.connections[j1].0, t1.name);
      var id2 := QualifiedId(r.connections[j2].0, t2.name);
      && id1 in Keys(r.index.value.tools) && id2 in Keys(r.index.value.tools)
      && id1 != id2
  {
    var a := r.connections[j1].0;
    var b := r.connections[j2].0;
    assert a in Keys(r.connections) && b in Keys(r.connections);
    SubsequenceMembers(Keys(r.connections), Keys(r.config), a);
    SubsequenceMembers(Keys(r.connections), Keys(r.config), b);
    QualifiedIdsDistinct(a, t1.name, b, t2.name);
  }

  /** `get_tools` for a configured server that did not connect returns no tools. */
  lemma GetToolsOfUnconnectedServer(r: Router, name: string)
    requires name != "" && name in Keys(r.config) && name !in Keys(r.connections)
    ensures GetTools(r, Some(name)) == Ok([])
  {
    var res := GetTools(r, Some(name));
    assert res.Ok?;
    assert forall e :: e !in res.value;
    NoMembersMeansEmpty(res.value);
  }

  /** `get_tools` for one server returns only that server's tools, each under
      its qualified id. */
  lemma GetToolsOfOneServer(r: Router, name: string)
    requires name != "" && GetTools(r, Some(name)).Ok?
    ensures forall e :: e in GetTools(r, Some(name)).value ==>
      e.0 == QualifiedId(name, e.1.name) && ServedBy(r, name, e.1)
  {
  }

  /** A second `aclose` finds no connections: it closes and releases nothing. */
  lemma AcloseTwice(r: Router, first: string -> Step, second: string -> Step)
    ensures var o1 := Aclose(r, first);
      var o2 := Aclose(o1.router, second);
      o2.closed == [] && o2.released == [] && o2.router == o1.router
  {
  }
}

=== FILE: schemas.dfy ===
/** The configuration record of one backend server and the `Server` record
    built from it (schemas.py). */
module Schemas {
  import opened Wrappers

  /** The exceptions the modelled code raises, one variant per cause. */
  datatype Error =
    | MissingCommandAndUrl         // ValueError from the ServerConfig validator
    | NotEstablished(server: string) // RuntimeError: the connection has no session
    | NoSession                    // AttributeError: `list_tools` reached on a `None` session
    | ToolsNotIterable(server: string) // TypeError: iterating a `tools` list that is `None`
    | Raised(cause: string)        // an exception raised by a transport or a session, passed through
    | NotInConfiguration(server: string) // ValueError from Router.get_tools
    | NotConnected(server: string) // ValueError from Router.call_tool
    | NotInitialized               // AttributeError: routing before `initialize` built the indices

  type Res<T> = Result<T, Error>

  /** A tool as a backend reports it; the JSON input schema is kept as opaque text. */
  datatype Tool = Tool(name: string, description: Option<string>, inputSchema: string)

  /** A configuration entry as written in the config file: every field may be absent.
      An explicit `null` for `command` or `url` is the same as an absent one. */
  datatype RawConfig = RawConfig(
    command: Option<string>,
    args: Option<seq<string>>,
    env: Option<map<string, string>>,
    url: Option<string>,
    headers: Option<map<string, string>>)

  /** A validated `ServerConfig`: absent fields have taken their defaults. */
  datatype ServerConfig = ServerConfig(
    command: Option<string>,
    args: seq<string>,
    env: map<string, string>,
    url: Option<string>,
    headers: map<string, string>)

  /** A server the router can connect: `description` is never set by the modelled
      code and `tools` stays `None` until a connect fetches the tool list. */
  datatype Server = Server(name: string, description: Option<string>, config: ServerConfig, tools: Option<seq<Tool>>)

  /** The field values a `ServerConfig` takes when the record leaves them out. */
  const Defaults := ServerConfig(None, [], map[], None, map[])

  /** Python truthiness of a `str | None` field: `None` and `""` are both false. */
  predicate Present(field: Option<string>) {
    field.Some? && field.value != ""
  }

  /** `check_command_or_url`: the only rejected record is one with neither a
      command nor a url; anything else is returned as it is. */
  function CheckCommandOrUrl(c: ServerConfig): (r: Res<ServerConfig>)
    ensures r.Err? <==> !Present(c.command) && !Present(c.url)
    ensures r.Err? ==> r.error == MissingCommandAndUrl
    ensures r.Ok? ==> r.value == c
  {
    if !Present(c.command) && !Present(c.url) then Err(MissingCommandAndUrl) else Ok(c)
  }

  /** `ServerConfig(**raw)`: fill in the defaults, then run the validator. */
  function ParseConfig(raw: RawConfig): (r: Res<ServerConfig>)
    ensures r.Err? <==> !Present(raw.command) && !Present(raw.url)
    ensures r.Ok? ==> r.value.command == raw.command && r.value.url == raw.url
    ensures r.Ok? ==> r.value.args == raw.args.GetOr(Defaults.args)
    ensures r.Ok? ==> r.value.env == raw.env.GetOr(Defaults.env)
    ensures r.Ok? ==> r.value.headers == raw.headers.GetOr(Defaults.headers)
  {
    CheckCommandOrUrl(ServerConfig(raw.command, raw.args.GetOr([]), raw.env.GetOr(map[]), raw.url, raw.headers.GetOr(map[])))
  }

  /** A record is accepted exactly when it names a command or a url. */
  predicate Accepted(raw: RawConfig) {
    Present(raw.command) || Present(raw.url)
  }

  /** A record with both a command and a url passes validation with both kept. */
  lemma BothCommandAndUrlAccepted(raw: RawConfig)
    requires Present(raw.command) && Present(raw.url)
    ensures ParseConfig(raw).Ok?
    ensures Present(ParseConfig(raw).value.command) && Present(ParseConfig(raw).value.url)
  {
  }

  /** An empty command and an empty url count as absent. */
  lemma EmptyStringsRejected(raw: RawConfig)
    requires raw.command == Some("") && raw.url in {None, Some("")}
    ensures ParseConfig(raw) == Err(MissingCommandAndUrl)
  {
  }

  /** `Server(name=name, config=config)`: no description and no tools yet. */
  function NewServer(name: string, config: ServerConfig): (s: Server)
    ensures s.name == name && s.config == config
    ensures s.description.None? && s.tools.None?
  {
    Server(name, None, config, None)
  }
}

=== FILE: wrappers.dfy ===
/** Option and Result, the failure-compatible datatypes the rest of the model
    uses in place of Python's `None` and raised exceptions. */
module Wrappers {

  datatype Option<+T> = None | Some(value: T) {

    /** The wrapped value, or `default` when there is none. */
    function GetOr(default: T): T {
      match this
      case Some(v) => v
      case None => default
    }
  }

  /** Either a value or the error that was raised instead. */
  datatype Result<+T, +E> = Ok(value: T) | Err(error: E) {

    predicate IsFailure() {
      Err?
    }

    function PropagateFailure<U>(): Result<U, E>
      requires Err?
    {
      Err(error)
    }

    function Extract(): T
      requires Ok?
    {
      value
    }
  }
}
